=== FILE: README.md ===
# ai_agent_ha — a Dafny model of the integration's core logic

This project models three pieces of the AI Agent HA Home Assistant integration.

- **Config-entry setup** (`async_setup_entry` up to service registration) and **unload** (`async_unload_entry`).
  Setup requires `ai_provider`. It creates a missing `models` map and fills a missing or empty model from the
  defaults table, and in that case writes the entry back. It then checks the provider against the nine-name
  allow-list and stores the config and the agent in a registry keyed by provider. Unload discards the registry.
- **Service dispatch**, the policy the eight service handlers share. It refuses when no agent is registered
  and otherwise picks the requested provider or the earliest-registered one. It applies the per-handler defaults
  (user id `"default"`, prompt `""`, ...). The two dashboard handlers decode string configurations, and
  `update_dashboard` requires a URL. Any agent failure becomes `{"error": msg}`.
- **The chat widgets' message state machine**, shared by the floating button (FAB) and the Lovelace card.
  It covers the send guard (trimmed input, loading flag), the user message, and how a response is turned
  into the assistant message. It also models toggling, Enter-to-send, quick actions and the card's title,
  quick-action flag and size.

Modules:

| file | module | contents |
|---|---|---|
| common.dfy | `Common` | `Option` |
| py_json.dfy | `PyJson` | Python values, Python truthiness, hashability, `{"error": msg}` |
| entries.dfy | `Entries` | config-entry data, agent handle, the registry with its insertion order |
| agent.dfy | `Agent` | the agent calls (requests) and their outcomes; the agent is an oracle |
| lifecycle.dfy | `Lifecycle` | `Normalise`, `SetupEntry`, `Unload`, sequences of setups |
| services.dfy | `Services` | provider selection, request preparation, `Dispatch` |
| js_values.dfy | `JsValues` | JavaScript values, truthiness, property access, `String(v)` |
| js_strings.dfy | `JsStrings` | `String.prototype.trim` and its properties |
| conversation.dfy | `Conversation` | the message logic common to both widgets |
| fab.dfy | `Fab` | the floating button: open/closed window around the conversation |
| card.dfy | `Card` | the card: configuration, title, quick actions, size |
| scenarios.dfy | `Scenarios` | properties linking setup, unload and dispatch |

Oracles and parameters:

- The agent (`AiAgentHaAgent`) is the parameter `invoke: (AgentHandle, Agent.Request) -> Agent.Outcome`.
  An outcome is `Ok(result)` or `Fail(message)`.
- `json.loads` on a string is the parameter `parse: string -> ParseResult`.
- `DEFAULT_MODELS` lives in `config_flow.py`, which is not part of this model. It is the parameter `defaults`.
- How the agent constructor raises, if it does, is the parameter `agentFault`: a `KeyError` (with its text) or any
  other exception (with its message).
- A send in the widgets issues the call `callService("ai_agent_ha", "query", {prompt})`, a `QueryCall`. Its awaited
  outcome is a `CallOutcome`, `Resolved(response)` or `Rejected(error)`; the atomic send takes the service's
  answer as the parameter `respond: QueryCall -> CallOutcome`.

Behaviour of the code that the model follows:

- Setup raises `ConfigEntryNotReady` inside its own `try`. The `except Exception` clause catches it and raises it
  again. So the missing-provider and unknown-provider reasons carry the prefix `"Error setting up AI Agent HA: "`:
  "Config entry missing required 'ai_provider' key" and "Unknown AI provider: x" are never seen bare.
- A `KeyError` raised by the agent constructor is the one exception caught by the `except KeyError` clause. Its
  reason is `"Missing required configuration key: "` followed by `str(err)`, with no other prefix. Any other
  exception from the constructor gets the `"Error setting up AI Agent HA: "` prefix.
- The domain's registry is created, when it does not exist yet, before the allow-list check. An unknown provider
  therefore leaves a registry behind: an empty one if there was none, otherwise the existing one unchanged
  (`SetupEntry` returns `Some(...)` for it). The filled-in model has already been written back at that point.
- If the agent constructor raises, `configs[provider]` has already been stored but `agents[provider]` has not been
  written. On a re-setup the provider's earlier agent therefore stays registered, next to the new config.
- The handlers' second "no agents" check (the empty key list) can never fire once the first check has passed.
  `SelectProvider` still models it.
- A list or dict given as `provider` makes `provider not in agents` raise `TypeError`. The handler turns that into
  `{"error": "unhashable type: 'list'"}` (or `'dict'`).
- In the widgets, a rejected call whose error is `null` or `undefined` makes `error.message` throw inside
  the `catch`. No assistant message is appended, and `finally` still clears the loading flag.

## Model

| member | source | states |
|---|---|---|
| Lifecycle.Normalise | custom_components/ai_agent_ha/__init__.py:77-94 | a `models` map always exists afterwards; the provider's model is filled from the defaults table exactly when it was missing or empty (and then the entry is flagged for writing back); otherwise the record is unchanged; other providers' models are unchanged |
| Lifecycle.FaultReason | custom_components/ai_agent_ha/__init__.py:144-149 | a `KeyError` gives "Missing required configuration key: " plus its text; any other exception gives "Error setting up AI Agent HA: " plus its message |
| Lifecycle.Register | custom_components/ai_agent_ha/__init__.py:117-140 | the config is stored (replacing any earlier one) before the agent; a raising constructor leaves agents and order as they were and gives its fault's reason; otherwise the agent built from the stored config is registered, other providers untouched and the order only extended |
| Lifecycle.SetupEntry | custom_components/ai_agent_ha/__init__.py:56-149 | missing provider: not ready and nothing changes; ready iff the provider is in the allow-list and the agent is built; the record written back is exactly the normalised record (every other key kept), and only when the model was missing, even for an unknown provider; unknown provider: not ready, no entry stored; a raising constructor: the normalised config stored, other configs kept, agents and order unchanged, the fault's reason; on success this provider's config is the normalised record and its agent is built from it, every other provider untouched; the registry stays well-formed |
| Lifecycle.Unload | custom_components/ai_agent_ha/__init__.py:505-509 | the registry under the domain is gone, so no agent is registered |
| Lifecycle.UnloadIdempotent | custom_components/ai_agent_ha/__init__.py:505-509 | unloading twice equals unloading once |
| Entries.Registry.PutAgent | custom_components/ai_agent_ha/__init__.py:140 | the agent is stored under its provider and every other agent is kept; a new provider is appended to the insertion order, while re-registering one leaves the order as it was; the registry stays well-formed |
| Lifecycle.SetupSequence | custom_components/ai_agent_ha/__init__.py:96-140 | any sequence of setups whose agents are built keeps the registry's insertion order consistent with its agents |
| Lifecycle.SequenceKeepsEarliest | custom_components/ai_agent_ha/__init__.py:117-140 | over any sequence of setups whose agents are built, the head of the insertion order never changes once set; from an empty registry it is the first provider setup accepted, and it stays empty if none is accepted |
| Services.SelectProvider | custom_components/ai_agent_ha/__init__.py:198-206 | the requested provider when it names a registered agent, else the first registered key; no provider only when there are no agents; a list/dict provider raises |
| Services.UserId | custom_components/ai_agent_ha/__init__.py:236 | the context's user id when non-empty, else `"default"` |
| Services.DashboardConfig | custom_components/ai_agent_ha/__init__.py:296-305 | a string configuration is decoded, and a decode failure gives "Invalid JSON in dashboard_config: " plus the message; other values pass unchanged |
| Services.PrepareRequest | custom_components/ai_agent_ha/__init__.py:176-409 | each handler makes the agent call for its own operation, with the user id policy and the chosen provider; the payload fields are forwarded with the handlers' defaults (prompt `""`, debug `False`, automation `{}`, history and messages `[]`, URL `""`); only the dashboard handlers can refuse: undecodable text, or (update) a falsy URL |
| Services.Dispatch | custom_components/ai_agent_ha/__init__.py:152-413 | no agents: exactly `{"error": "No AI agents configured"}` and no agent call; a provider test that raises gives `{"error": <the TypeError's text>}`, and a refused request gives `{"error": <the handler's message>}`; every agent call goes to the selected provider's registered agent; the agent's result is passed on, and a failure becomes `{"error": msg}`; only `query` answers through the event |
| Services.UnhashableProviderRejected | custom_components/ai_agent_ha/__init__.py:198-213 | with agents registered, a list or dict `provider` makes every handler return `{"error": "unhashable type: 'list'"}` (or `'dict'`) without calling the agent |
| Services.AgentFailureBecomesError | custom_components/ai_agent_ha/__init__.py:209-213 | when the agent always fails, every handler's payload is an error object |
| Services.UpdateDashboardNeedsUrl | custom_components/ai_agent_ha/__init__.py:346-348 | a missing or empty `dashboard_url` gives `{"error": "Dashboard URL is required"}` and no agent call |
| Services.DashboardTextMatchesValue | custom_components/ai_agent_ha/__init__.py:296-307 | JSON text is handled exactly like the value it decodes to |
| Services.DashboardTextRejected | custom_components/ai_agent_ha/__init__.py:335-344 | malformed dashboard text gives the decode error and no agent call |
| Scenarios.FallbackServesEarliest | custom_components/ai_agent_ha/__init__.py:164-176 | after setups from empty, a call naming no registered provider is served by the first accepted provider's agent |
| Scenarios.UnloadedServesNothing | custom_components/ai_agent_ha/__init__.py:190-196 | after unload every handler returns the no-agents error without an agent call |
| Scenarios.OpenAiWithoutModels | custom_components/ai_agent_ha/__init__.py:77-140 | `{"ai_provider": "openai"}` is ready, registered, and written back with the default model |
| JsStrings.SkipLeading | custom_components/ai_agent_ha/frontend/ai_agent_ha-fab.js:317 | the first index from the start whose character is not white space: everything before it is white space |
| JsStrings.SkipTrailing | custom_components/ai_agent_ha/frontend/ai_agent_ha-fab.js:317 | the smallest end index such that everything after it is white space, and the character before it is not |
| JsStrings.TrimCuts | custom_components/ai_agent_ha/frontend/ai_agent_ha-fab.js:317 | the input is the leading cut, then the trimmed text, then the trailing cut, and both cuts are all white space |
| JsStrings.Trim | custom_components/ai_agent_ha/frontend/ai_agent_ha-fab.js:315-317 | `s.trim()`, also at ai_agent_ha-card.js:271-273: the result is no longer than the input and neither starts nor ends with white space; with `TrimCuts` it is exactly the input without its leading and trailing white space |
| JsStrings.TrimEmptyIffBlank | custom_components/ai_agent_ha/frontend/ai_agent_ha-fab.js:315 | the trimmed input is empty iff the input is all white space |
| JsStrings.TrimFixedIffEdges | custom_components/ai_agent_ha/frontend/ai_agent_ha-fab.js:317 | trimming leaves a string unchanged iff it is empty or neither starts nor ends with white space |
| JsStrings.TrimIdempotent | custom_components/ai_agent_ha/frontend/ai_agent_ha-fab.js:317 | trimming twice equals trimming once |
| JsValues.ToText | custom_components/ai_agent_ha/frontend/ai_agent_ha-fab.js:345-354 | `String(v)` in the `Error: ${...}` templates (also ai_agent_ha-card.js:301-310): a string is unchanged; undefined, null, booleans and objects give their fixed texts; an integer gives digits without leading zeros, with a leading minus exactly when negative; an empty array gives the empty text, and a one-element array the text of its element |
| JsValues.NumberTextRoundTrip | custom_components/ai_agent_ha/frontend/ai_agent_ha-fab.js:345 | an integer's text reads back as the same integer |
| JsValues.Member | custom_components/ai_agent_ha/frontend/ai_agent_ha-fab.js:335 | reading one of the widgets' keys (`response`, `error`, `message`, `title`, `show_quick_actions`) throws exactly on null/undefined gives undefined on non-objects, and on an object gives the property's value, or undefined when it is absent |
| Conversation.BeginSend | custom_components/ai_agent_ha/frontend/ai_agent_ha-fab.js:314-320 | blank input or loading: no change; otherwise the input is cleared, exactly one user message with the trimmed text is appended and loading starts |
| Conversation.OutgoingQuery | custom_components/ai_agent_ha/frontend/ai_agent_ha-fab.js:314-333 | a send issues no call exactly when the button is disabled; otherwise it calls service `query` of domain `ai_agent_ha` with the trimmed input as prompt, the same text as the user message it appends |
| Conversation.RejectionText | custom_components/ai_agent_ha/frontend/ai_agent_ha-fab.js:349-356 | the error's truthy message, else "Failed to get response"; nothing when the error is null/undefined |
| Conversation.AssistantReply | custom_components/ai_agent_ha/frontend/ai_agent_ha-fab.js:335-356 | a truthy `response` wins, then `Error: ` plus a truthy `error`, else nothing; a rejection gives `Error: ` plus its text |
| Conversation.Complete | custom_components/ai_agent_ha/frontend/ai_agent_ha-fab.js:330-358 | loading ends, earlier messages are kept and at most the one assistant reply is appended |
| Conversation.SendMessage | custom_components/ai_agent_ha/frontend/ai_agent_ha-fab.js:314-358 | a guarded send changes nothing; a valid one clears the input, ends not loading, and grows the list by 1 or 2 with the user message first; when the answer to its own `query` call yields a reply, that reply is the last message |
| Conversation.Step | custom_components/ai_agent_ha/frontend/ai_agent_ha-fab.js:272-312 | no event removes or changes a message, and an event adds at most one |
| Conversation.IssuedQuery | custom_components/ai_agent_ha/frontend/ai_agent_ha-fab.js:302-333 | an event that issues a `query` call appends exactly the user message with the call's prompt and starts loading; any other event except a settling call leaves the messages alone |
| Conversation.QuickActionSendsTrimmedText | custom_components/ai_agent_ha/frontend/ai_agent_ha-fab.js:309-333 | a non-empty, already trimmed quick action pressed while idle issues a query with exactly its text and appends it as the user message |
| Conversation.QuickActionIsInputThenSend | custom_components/ai_agent_ha/frontend/ai_agent_ha-fab.js:309-312 | a quick action equals typing its text and then sending |
| Conversation.SendIsBeginThenSettle | custom_components/ai_agent_ha/frontend/ai_agent_ha-fab.js:314-358 | the atomic send equals a click followed by the answer to the query that click issued; while loading a click or quick action issues no query and a click changes nothing |
| Conversation.InitialState | custom_components/ai_agent_ha/frontend/ai_agent_ha-fab.js:188-193 | the widgets start with no messages, so every user message is trimmed, and with the send button disabled and no query issued |
| Conversation.RunAppendOnly | custom_components/ai_agent_ha/frontend/ai_agent_ha-fab.js:319-356 | over any run of events the earlier messages remain a prefix |
| Conversation.StepKeepsUserMessagesTrimmed | custom_components/ai_agent_ha/frontend/ai_agent_ha-fab.js:315-319 | each event keeps every user message a non-empty trimmed string |
| Conversation.RunKeepsUserMessagesTrimmed | custom_components/ai_agent_ha/frontend/ai_agent_ha-fab.js:315-319 | over any run of events every user message stays a non-empty trimmed string |
| Fab.InitiallyClosed | custom_components/ai_agent_ha/frontend/ai_agent_ha-fab.js:188-193 | the window starts closed with no messages, and the first toggle opens it on the initial conversation |
| Fab.ToggleChat | custom_components/ai_agent_ha/frontend/ai_agent_ha-fab.js:289-290 | the window flips open/closed and the conversation is untouched |
| Fab.ToggleTwice | custom_components/ai_agent_ha/frontend/ai_agent_ha-fab.js:289-290 | toggling twice restores the state |
| Fab.SendButtonDisabled | custom_components/ai_agent_ha/frontend/ai_agent_ha-fab.js:278 | the send button is disabled iff loading or the input is all white space |
| Fab.Step | custom_components/ai_agent_ha/frontend/ai_agent_ha-fab.js:272-358 | toggling only toggles; a chat event (input, Enter, send button, quick action, the query settling) keeps the window state and acts on the conversation exactly as the shared step does |
| Fab.KeyPressSends | custom_components/ai_agent_ha/frontend/ai_agent_ha-fab.js:302-306 | Enter without Shift acts as the send button; other keys change nothing |
| Fab.QuickActionSendsItsText | custom_components/ai_agent_ha/frontend/ai_agent_ha-fab.js:246-265 | when idle, each of the window's quick actions issues a `query` with exactly its own text and appends that text as a user message |
| Card.GetCardSize | custom_components/ai_agent_ha/frontend/ai_agent_ha-card.js:174-175 | the card size is always 6 |
| Card.Title | custom_components/ai_agent_ha/frontend/ai_agent_ha-card.js:183 | the configured title when truthy, else "AI Assistant"; the title shown is never falsy |
| Card.ShowQuickActions | custom_components/ai_agent_ha/frontend/ai_agent_ha-card.js:186 | quick actions are hidden iff `show_quick_actions` is exactly `false` |
| Card.InitialCard | custom_components/ai_agent_ha/frontend/ai_agent_ha-card.js:163-167 | before `setConfig` the card shows "AI Assistant" and the quick actions, with the initial conversation |
| Card.QuickActionSendsItsText | custom_components/ai_agent_ha/frontend/ai_agent_ha-card.js:186-206 | when idle, each of the card's quick actions issues a `query` with exactly its own text and appends that text as a user message, the config unchanged |
| Card.Step | custom_components/ai_agent_ha/frontend/ai_agent_ha-card.js:170-314 | `setConfig` replaces only the config; a chat event keeps the config and acts on the conversation exactly as the shared step does |
| Card.SendMessage | custom_components/ai_agent_ha/frontend/ai_agent_ha-card.js:270-323 | same guard and outcome as the button's send, with the card config unchanged: the trimmed user message, then the reply to that prompt's `query` call as the last message when there is one |
| Card.SendQuickAction | custom_components/ai_agent_ha/frontend/ai_agent_ha-card.js:265-268 | the config is unchanged; when idle, a non-blank action is sent as the trimmed user message, loading ends, the list grows by 1 or 2 and the reply to its query is last when there is one; while loading, or for a blank action, the input only takes the action text |
| Card.KeyPressSends | custom_components/ai_agent_ha/frontend/ai_agent_ha-card.js:258-263 | Enter without Shift acts as the send button; other keys change nothing |

## Left out

- Service registration and removal, the static path, panel registration and removal, and `_panel_exists`: these only query or change the host's state.
- Logging, including the token-redacting dictionary built only for a debug log.
- The version check in setup, which only logs a warning.
- `async_migrate_entry` and `async_setup`, which do nothing.
- The agent's own behaviour and the event bus: the agent is an oracle, and `query`'s event is the `viaEvent` flag on the payload.
- `ai_agent_ha-global.js`: DOM polling, timers and a mutation observer.
- Rendering, CSS, scrolling and `preventDefault`. The widgets' async interleaving is modelled only as two steps, begin and settle.
- Lifecycle.SetupEntry: assumes `ai_provider` is a string and `models` is a dict of strings. Other types would raise inside the `try` and also end as not ready, but that case is not modelled.
- Lifecycle.SetupEntry: a `KeyError` can only come from the agent constructor here, since `entry.data` and `models` are typed records. Its text is taken as given; that Python renders a `KeyError` as the quoted key (`str(KeyError('k'))` is `'k'`) is not modelled.
- Lifecycle.Normalise: Python shares the inner `models` dict between the entry and its shallow copy. That aliasing is not modelled; the written-back record is modelled as a new value.
- JsValues.Member: only the keys the widgets read are modelled. Properties that primitives and arrays do have, such as `length`, are out of scope.
- PyJson.Json: Python floats are not modelled. Numbers are integers, so a zero float (falsy) or a float provider value does not arise.
- JsValues.ToText: numbers are integers, so NaN and fractions are absent. `String(n)` for very large numbers (exponent notation) is not modelled.
- Services.Dispatch: handlers are coroutines that suspend at their single `await` on the agent, so another service call or an unload can run in between. The model treats a call as one step. This is sound for what the handler decides, because it reads the registry, picks the agent and prepares the request before that `await`. Interleavings while the agent runs are not modelled.
- JsValues.ToText: for arrays of two or more elements the text is given only by the definition of `JoinItems` (element texts joined by commas); no further property of it is proved.

=== FILE: agent.dfy ===
/**
 * The calls the integration makes on an agent. The agent itself is an external
 * collaborator and appears only as an oracle from requests to outcomes.
 */
module Agent {
  import opened PyJson

  /** One agent method call with the arguments the handler passes. */
  datatype Request =
    | ProcessQuery(prompt: Json, provider: string, debug: Json)
    | CreateAutomation(automation: Json)
    | SaveUserPromptHistory(userId: string, history: Json)
    | LoadUserPromptHistory(userId: string)
    | CreateDashboard(dashboardConfig: Json)
    | UpdateDashboard(dashboardUrl: Json, dashboardConfig: Json)
    | SaveChatMessages(userId: string, messages: Json, provider: string)
    | LoadChatMessages(userId: string, provider: string)

  /** What an awaited agent call does: return a result or raise with a message. */
  datatype Outcome = Ok(result: Json) | Fail(message: string)
}

=== FILE: card.dfy ===
/** The dashboard card: a configurable frame around the shared conversation. */
module Card {
  import opened JsValues
  import opened Common
  import opened Conversation

  /** The card configuration is whatever `setConfig` received; undefined before that. */
  datatype CardState = CardState(config: JsValue, chat: Chat)

  const CardInitial := CardState(Undefined, Initial)

  const DefaultTitle := "AI Assistant"

  /** The texts the card's quick-action buttons send. */
  const QuickActions: seq<string> := ["Create an automation", "Create a scene", "Show my devices"]

  datatype CardEvent = SetConfig(config: JsValue) | ChatInput(e: ChatEvent)

  /** `getCardSize`: the card always asks for six grid rows. */
  function GetCardSize(): (r: int)
    ensures r == 6
  {
    6
  }

  /** `config?.title || "AI Assistant"`: the configured title when truthy, else the default. */
  function Title(config: JsValue): (r: JsValue)
    ensures Truthy(r)
    ensures Truthy(OptionalMember(config, "title")) ==> r == OptionalMember(config, "title")
    ensures !Truthy(OptionalMember(config, "title")) ==> r == Str(DefaultTitle)
  {
    var t := OptionalMember(config, "title");
    if Truthy(t) then t else Str(DefaultTitle)
  }

  /** `config?.show_quick_actions !== false`: only the boolean false hides the quick actions. */
  function ShowQuickActions(config: JsValue): (r: bool)
    ensures !r <==> (config.Obj? && "show_quick_actions" in config.props
                     && config.props["show_quick_actions"] == Bool(false))
  {
    OptionalMember(config, "show_quick_actions") != Bool(false)
  }

  /** One event on the card. */
  function Step(s: CardState, e: CardEvent): (r: CardState)
    ensures e.SetConfig? ==> r == CardState(e.config, s.chat)
    ensures e.ChatInput? ==> r.config == s.config && s.chat.messages <= r.chat.messages
    ensures e.ChatInput? ==> r.chat == Conversation.Step(s.chat, e.e)
  {
    match e
    case SetConfig(config) => s.(config := config)
    case ChatInput(ce) => s.(chat := Conversation.Step(s.chat, ce))
  }

  /**
   * `_sendMessage` on the card, with the awaited call as one atomic step; `respond`
   * is the service's answer to the call issued.
   */
  function SendMessage(s: CardState, respond: QueryCall -> CallOutcome): (r: CardState)
    ensures r.config == s.config
    ensures SendDisabled(s.chat) ==> r == s
    ensures !SendDisabled(s.chat) ==>
      var reply := AssistantReply(respond(QueryCall("ai_agent_ha", "query", JsStrings.Trim(s.chat.inputValue))));
      && r.chat.inputValue == ""
      && !r.chat.isLoading
      && s.chat.messages + [Message(User, Str(JsStrings.Trim(s.chat.inputValue)))] <= r.chat.messages
      && |r.chat.messages| == |s.chat.messages| + (if reply.Some? then 2 else 1)
      && (reply.Some? ==> r.chat.messages[|r.chat.messages| - 1] == reply.value)
  {
    s.(chat := Conversation.SendMessage(s.chat, respond))
  }

  /** `_sendQuickAction(a)` is setting the input to `a` and then sending. */
  function SendQuickAction(s: CardState, action: string, respond: QueryCall -> CallOutcome): (r: CardState)
    ensures r.config == s.config
    ensures !s.chat.isLoading && JsStrings.Trim(action) != [] ==>
      var reply := AssistantReply(respond(QueryCall("ai_agent_ha", "query", JsStrings.Trim(action))));
      && r.chat.inputValue == ""
      && !r.chat.isLoading
      && s.chat.messages + [Message(User, Str(JsStrings.Trim(action)))] <= r.chat.messages
      && |r.chat.messages| == |s.chat.messages| + (if reply.Some? then 2 else 1)
      && (reply.Some? ==> r.chat.messages[|r.chat.messages| - 1] == reply.value)
    // Loading, or a blank action: the action text only lands in the input field.
    ensures s.chat.isLoading || JsStrings.Trim(action) == [] ==> r.chat == s.chat.(inputValue := action)
  {
    SendMessage(s.(chat := s.chat.(inputValue := action)), respond)
  }

  /** Before `setConfig` the card shows the default title and the quick actions. */
  lemma InitialCard()
    ensures Title(CardInitial.config) == Str(DefaultTitle)
    ensures ShowQuickActions(CardInitial.config)
    ensures CardInitial.chat == Initial
  {
  }

  /** Each quick action, pressed while idle, queries the service with exactly its text. */
  lemma QuickActionSendsItsText(s: CardState, i: nat)
    requires i < |QuickActions|
    requires !s.chat.isLoading
    ensures IssuedQuery(s.chat, QuickAction(QuickActions[i]))
      == Some(QueryCall("ai_agent_ha", "query", QuickActions[i]))
    ensures Step(s, ChatInput(QuickAction(QuickActions[i])))
      == s.(chat := Chat(s.chat.messages + [Message(User, Str(QuickActions[i]))], true, ""))
  {
    var a := QuickActions[i];
    assert a[0] == 'C' || a[0] == 'S';
    assert a[|a| - 1] in "noest";
    JsStrings.LetterEdgesTrimmed(a);
    QuickActionSendsTrimmedText(s.chat, a);
  }

  /** `_handleKeyPress` on the card: Enter without Shift sends, other keys do nothing. */
  lemma KeyPressSends(s: CardState, key: string, shiftKey: bool)
    ensures TriggersSend(key, shiftKey) ==>
      Step(s, ChatInput(KeyPress(key, shiftKey))) == Step(s, ChatInput(ClickSend))
    ensures !TriggersSend(key, shiftKey) ==> Step(s, ChatInput(KeyPress(key, shiftKey))) == s
  {
  }
}

=== FILE: common.dfy ===
/** Small shared datatypes. */
module Common {

  /** A value that may be absent: a missing dictionary key, an unset field. */
  datatype Option<+T> = None | Some(value: T) {

    /** The value, or `default` when absent (Python's `dict.get(key, default)`). */
    function GetOr(default: T): T {
      match this
      case Some(v) => v
      case None => default
    }
  }
}

=== FILE: conversation.dfy ===
/**
 * The message logic shared by the floating chat button and the dashboard card:
 * the input, the send guard, the message list and the loading flag.
 */
module Conversation {
  import opened Common
  import opened JsValues
  import opened JsStrings

  datatype Role = User | Assistant

  /** A chat message; the content is whatever value was stored, as in the widget. */
  datatype Message = Message(role: Role, content: JsValue)

  datatype Chat = Chat(messages: seq<Message>, isLoading: bool, inputValue: string)

  /** The state both widgets' constructors set up. */
  const Initial := Chat([], false, "")

  const FailedToGetResponse := "Failed to get response"

  /** How the awaited `query` service call settles. */
  datatype CallOutcome = Resolved(response: JsValue) | Rejected(error: JsValue)

  /** The user-visible events the message logic reacts to. */
  datatype ChatEvent =
    | Input(text: string)
    | KeyPress(key: string, shiftKey: bool)
    | ClickSend
    | QuickAction(action: string)
    | Settle(outcome: CallOutcome)

  /** The send button is disabled while loading or while the trimmed input is empty. */
  predicate SendDisabled(c: Chat) {
    c.isLoading || Trim(c.inputValue) == []
  }

  /** Enter without Shift sends. */
  predicate TriggersSend(key: string, shiftKey: bool) {
    key == "Enter" && !shiftKey
  }

  /**
   * The synchronous part of `_sendMessage`, up to the awaited service call: when
   * the guard passes, the input is cleared, the trimmed text is appended as a user
   * message and loading starts; otherwise nothing changes.
   */
  function BeginSend(c: Chat): (r: Chat)
    ensures SendDisabled(c) ==> r == c
    ensures !SendDisabled(c) ==>
      && r.inputValue == ""
      && r.isLoading
      && |r.messages| == |c.messages| + 1
      && c.messages <= r.messages
      && r.messages[|c.messages|] == Message(User, Str(Trim(c.inputValue)))
  {
    if SendDisabled(c) then c
    else Chat(c.messages + [Message(User, Str(Trim(c.inputValue)))], true, "")
  }

  /** The service call a send issues: `hass.callService("ai_agent_ha", "query", { prompt })`. */
  datatype QueryCall = QueryCall(domain: string, service: string, prompt: string)

  /**
   * The call `_sendMessage` issues from this state, if its guard lets it through;
   * the prompt is the text of the user message it appends.
   */
  function OutgoingQuery(c: Chat): (q: Option<QueryCall>)
    ensures q.None? <==> SendDisabled(c)
    ensures q.Some? ==> q.value == QueryCall("ai_agent_ha", "query", Trim(c.inputValue))
    ensures q.Some? ==> BeginSend(c).messages[|c.messages|] == Message(User, Str(q.value.prompt))
  {
    if SendDisabled(c) then None else Some(QueryCall("ai_agent_ha", "query", Trim(c.inputValue)))
  }

  /** The text after "Error: " for a rejected call, or None when reading `.message` throws. */
  function RejectionText(error: JsValue): (r: Option<string>)
    ensures r.None? <==> error.Undefined? || error.Null?
    ensures r.Some? && Truthy(Member(error, "message").value) ==> r.value == ToText(Member(error, "message").value)
    ensures r.Some? && !Truthy(Member(error, "message").value) ==> r.value == FailedToGetResponse
  {
    match Member(error, "message")
    case None => None
    case Some(m) => Some(if Truthy(m) then ToText(m) else FailedToGetResponse)
  }

  /**
   * The assistant message a settled call appends, if any: the `response` field
   * first, then the `error` field, then nothing; a rejected call yields its
   * message or "Failed to get response".
   */
  function AssistantReply(o: CallOutcome): (r: Option<Message>)
    ensures r.Some? ==> r.value.role == Assistant
    ensures o.Resolved? && Truthy(o.response) && Truthy(Member(o.response, "response").value) ==>
      r == Some(Message(Assistant, Member(o.response, "response").value))
    ensures o.Resolved? && Truthy(o.response) && !Truthy(Member(o.response, "response").value)
            && Truthy(Member(o.response, "error").value) ==>
      r == Some(Message(Assistant, Str("Error: " + ToText(Member(o.response, "error").value))))
    ensures o.Resolved? ==>
      (r.None? <==> !Truthy(o.response)
                    || (!Truthy(Member(o.response, "response").value)
                        && !Truthy(Member(o.response, "error").value)))
    ensures o.Rejected? ==>
      (r.None? <==> RejectionText(o.error).None?)
      && (r.Some? ==> r.value.content == Str("Error: " + RejectionText(o.error).value))
  {
    match o
    case Resolved(v) =>
      if !Truthy(v) then None
      else
        var resp := Member(v, "response").value;
        var err := Member(v, "error").value;
        if Truthy(resp) then Some(Message(Assistant, resp))
        else if Truthy(err) then Some(Message(Assistant, Str("Error: " + ToText(err))))
        else None
    case Rejected(e) =>
      match RejectionText(e)
      case None => None
      case Some(t) => Some(Message(Assistant, Str("Error: " + t)))
  }

  /** The part of `_sendMessage` after the await, including the `finally`. */
  function Complete(c: Chat, o: CallOutcome): (r: Chat)
    ensures !r.isLoading && r.inputValue == c.inputValue
    ensures c.messages <= r.messages
    ensures |r.messages| == |c.messages| + (if AssistantReply(o).Some? then 1 else 0)
    ensures AssistantReply(o).Some? ==> r.messages[|c.messages|] == AssistantReply(o).value
  {
    match AssistantReply(o)
    case None => c.(isLoading := false)
    case Some(m) => c.(messages := c.messages + [m], isLoading := false)
  }

  /**
   * `_sendMessage` with the awaited call taken as one atomic step; `respond` is the
   * service's answer to the call issued. A guarded send changes nothing; a valid one
   * clears the input, appends the user message and at most one assistant message,
   * the reply to its own prompt, and ends with loading off.
   */
  function SendMessage(c: Chat, respond: QueryCall -> CallOutcome): (r: Chat)
    ensures SendDisabled(c) ==> r == c
    ensures !SendDisabled(c) ==>
      var reply := AssistantReply(respond(QueryCall("ai_agent_ha", "query", Trim(c.inputValue))));
      && r.inputValue == ""
      && !r.isLoading
      && c.messages + [Message(User, Str(Trim(c.inputValue)))] <= r.messages
      && |r.messages| == |c.messages| + (if reply.Some? then 2 else 1)
      && (reply.Some? ==> r.messages[|r.messages| - 1] == reply.value)
  {
    match OutgoingQuery(c)
    case None => c
    case Some(q) => Complete(BeginSend(c), respond(q))
  }

  /** One event. A settlement with no call in flight changes nothing. */
  function Step(c: Chat, e: ChatEvent): (r: Chat)
    ensures c.messages <= r.messages
    ensures |r.messages| <= |c.messages| + 1
  {
    match e
    case Input(text) => c.(inputValue := text)
    case KeyPress(key, shiftKey) => if TriggersSend(key, shiftKey) then BeginSend(c) else c
    case ClickSend => BeginSend(c)
    case QuickAction(action) => BeginSend(c.(inputValue := action))
    case Settle(o) => if c.isLoading then Complete(c, o) else c
  }

  /** The service call an event issues, if any. */
  function IssuedQuery(c: Chat, e: ChatEvent): (q: Option<QueryCall>)
    ensures q.Some? ==>
      && Step(c, e).messages == c.messages + [Message(User, Str(q.value.prompt))]
      && Step(c, e).isLoading
      && q.value.domain == "ai_agent_ha" && q.value.service == "query"
    ensures q.None? && !e.Settle? ==> Step(c, e).messages == c.messages
  {
    match e
    case KeyPress(key, shiftKey) => if TriggersSend(key, shiftKey) then OutgoingQuery(c) else None
    case ClickSend => OutgoingQuery(c)
    case QuickAction(action) => OutgoingQuery(c.(inputValue := action))
    case _ => None
  }

  /** A quick action whose text is already trimmed and not empty, pressed while idle, sends exactly that text. */
  lemma QuickActionSendsTrimmedText(c: Chat, a: string)
    requires !c.isLoading && a != [] && Trim(a) == a
    ensures IssuedQuery(c, QuickAction(a)) == Some(QueryCall("ai_agent_ha", "query", a))
    ensures Step(c, QuickAction(a)) == Chat(c.messages + [Message(User, Str(a))], true, "")
  {
  }

  /** A quick action is exactly: type the action's text, then press send. */
  lemma QuickActionIsInputThenSend(c: Chat, action: string)
    ensures Step(c, QuickAction(action)) == Step(Step(c, Input(action)), ClickSend)
    ensures Step(c, QuickAction(action)) == Step(Step(c, Input(action)), KeyPress("Enter", false))
  {
  }

  /**
   * The atomic send is the two-phase one: a click on send issues the query, and
   * the answer to that query settles it; while a call is in flight, neither
   * sending nor a quick action issues a query or adds a message.
   */
  lemma SendIsBeginThenSettle(c: Chat, respond: QueryCall -> CallOutcome)
    ensures IssuedQuery(c, ClickSend) == OutgoingQuery(c)
    ensures !SendDisabled(c) ==>
      SendMessage(c, respond) == Step(Step(c, ClickSend), Settle(respond(OutgoingQuery(c).value)))
    ensures c.isLoading ==> Step(c, ClickSend) == c && IssuedQuery(c, ClickSend).None?
    ensures c.isLoading ==> forall a :: IssuedQuery(c, QuickAction(a)).None?
  {
  }

  /** Runs the events in order. */
  function Run(c: Chat, events: seq<ChatEvent>): Chat
    decreases |events|
  {
    if events == [] then c else Run(Step(c, events[0]), events[1..])
  }

  /** Messages are append-only: no run of events removes or changes an earlier message. */
  lemma {:induction false} RunAppendOnly(c: Chat, events: seq<ChatEvent>)
    ensures c.messages <= Run(c, events).messages
    ensures |Run(c, events).messages| <= |c.messages| + |events|
    decreases |events|
  {
    if events != [] {
      RunAppendOnly(Step(c, events[0]), events[1..]);
    }
  }

  /** Every user message holds a non-empty string with no white space at either end. */
  ghost predicate UserMessagesTrimmed(c: Chat) {
    forall i :: 0 <= i < |c.messages| && c.messages[i].role == User ==>
      c.messages[i].content.Str?
      && c.messages[i].content.s != []
      && Trim(c.messages[i].content.s) == c.messages[i].content.s
  }

  lemma BeginSendKeepsUserMessagesTrimmed(c: Chat)
    requires UserMessagesTrimmed(c)
    ensures UserMessagesTrimmed(BeginSend(c))
  {
    if !SendDisabled(c) {
      TrimIdempotent(c.inputValue);
      var r := BeginSend(c);
      forall i | 0 <= i < |r.messages| && r.messages[i].role == User
        ensures r.messages[i].content.Str? && r.messages[i].content.s != []
        ensures Trim(r.messages[i].content.s) == r.messages[i].content.s
      {
        if i < |c.messages| {
          assert r.messages[i] == c.messages[i];
        }
      }
    }
  }

  lemma StepKeepsUserMessagesTrimmed(c: Chat, e: ChatEvent)
    requires UserMessagesTrimmed(c)
    ensures UserMessagesTrimmed(Step(c, e))
  {
    match e
    case Input(_) =>
    case KeyPress(_, _) => BeginSendKeepsUserMessagesTrimmed(c);
    case ClickSend => BeginSendKeepsUserMessagesTrimmed(c);
    case QuickAction(a) => BeginSendKeepsUserMessagesTrimmed(c.(inputValue := a));
    case Settle(o) =>
      if c.isLoading {
        var r := Complete(c, o);
        forall i | 0 <= i < |r.messages| && r.messages[i].role == User
          ensures r.messages[i].content.Str? && r.messages[i].content.s != []
          ensures Trim(r.messages[i].content.s) == r.messages[i].content.s
        {
          if i < |c.messages| {
            assert r.messages[i] == c.messages[i];
          }
        }
      }
  }

  /** The widgets start with no messages, not loading and the send button disabled. */
  lemma InitialState()
    ensures UserMessagesTrimmed(Initial)
    ensures SendDisabled(Initial) && OutgoingQuery(Initial).None?
  {
    TrimEmptyIffBlank(Initial.inputValue);
  }

  /** Any run of events keeps user messages trimmed and non-empty; from `Initial` on this always holds. */
  lemma {:induction false} RunKeepsUserMessagesTrimmed(c: Chat, events: seq<ChatEvent>)
    requires UserMessagesTrimmed(c)
    ensures UserMessagesTrimmed(Run(c, events))
    decreases |events|
  {
    if events != [] {
      StepKeepsUserMessagesTrimmed(c, events[0]);
      RunKeepsUserMessagesTrimmed(Step(c, events[0]), events[1..]);
    }
  }
}

=== FILE: entries.dfy ===
/** The config-entry record and the per-provider registry kept under the integration's domain. */
module Entries {
  import opened Common
  import opened PyJson

  /**
   * A config entry's data. `aiProvider` and `models` are the keys setup inspects;
   * every other key (tokens, endpoints, ...) is carried unchanged in `other`.
   */
  datatype ConfigData = ConfigData(
    aiProvider: Option<string>,
    models: Option<map<string, string>>,
    other: map<string, Json>)
  {
    /** The models map, or an empty one when the key is absent. */
    function ModelsOrEmpty(): map<string, string> {
      models.GetOr(map[])
    }
  }

  /** The agent object built from a config record; opaque apart from the config it was built from. */
  datatype AgentHandle = AgentHandle(config: ConfigData)

  /**
   * The registry: `configs` and `agents` keyed by provider. Python dictionaries keep
   * insertion order; `order` records the order of the keys of `agents`.
   */
  datatype Registry = Registry(
    configs: map<string, ConfigData>,
    agents: map<string, AgentHandle>,
    order: seq<string>)
  {
    /** `order` lists each key of `agents` exactly once. */
    ghost predicate Valid() {
      && (forall i, j :: 0 <= i < j < |order| ==> order[i] != order[j])
      && (forall p :: p in agents <==> p in order)
    }

    /**
     * `agents[p] = a`: a new key goes to the end of the insertion order,
     * an existing key keeps its position.
     */
    function PutAgent(p: string, a: AgentHandle): (r: Registry)
      requires Valid()
      ensures r.Valid()
      ensures r.configs == configs
      ensures p in r.agents && r.agents[p] == a
      ensures forall q :: q != p ==> (q in r.agents <==> q in agents)
      ensures forall q :: q != p && q in agents ==> r.agents[q] == agents[q]
      ensures order <= r.order
      ensures |r.order| == |order| + (if p in agents then 0 else 1)
      ensures p !in agents ==> r.order[|order|] == p
    {
      Registry(configs, agents[p := a], if p in agents then order else order + [p])
    }
  }

  /** The registry as first created: `{"agents": {}, "configs": {}}`. */
  const EmptyRegistry := Registry(map[], map[], [])

  /** The registry held under the domain, or a fresh empty one if the domain key is absent. */
  function RegistryOrEmpty(state: Option<Registry>): Registry {
    state.GetOr(EmptyRegistry)
  }

  /** True when no agent can serve a call: the domain key is absent or holds no agents. */
  predicate NoAgentsRegistered(state: Option<Registry>) {
    state.None? || state.value.agents == map[]
  }
}

=== FILE: fab.dfy ===
/** The floating chat button: a toggleable window around the shared conversation. */
module Fab {
  import opened JsStrings
  import opened Common
  import opened Conversation

  datatype FabState = FabState(isOpen: bool, chat: Chat)

  /** The constructor's state: closed, no messages, not loading, empty input. */
  const FabInitial := FabState(false, Initial)

  /** The texts the window's quick-action buttons send. */
  const QuickActions: seq<string> := ["Create an automation", "Create a scene", "Show me my lights"]

  datatype FabEvent = Toggle | ChatInput(e: ChatEvent)

  /** `_toggleChat`: opens or closes the window, touching nothing else. */
  function ToggleChat(s: FabState): (r: FabState)
    ensures r.isOpen != s.isOpen
    ensures r.chat == s.chat
  {
    s.(isOpen := !s.isOpen)
  }

  /** Toggling twice restores the window. */
  lemma ToggleTwice(s: FabState)
    ensures ToggleChat(ToggleChat(s)) == s
  {
  }

  /** The window's send button is disabled exactly while loading or while the trimmed input is empty. */
  lemma SendButtonDisabled(s: FabState)
    ensures SendDisabled(s.chat) <==> s.chat.isLoading || AllWhiteSpace(s.chat.inputValue)
  {
    TrimEmptyIffBlank(s.chat.inputValue);
  }

  /** One event on the button or inside its window. */
  function Step(s: FabState, e: FabEvent): (r: FabState)
    ensures e.Toggle? ==> r == ToggleChat(s)
    ensures e.ChatInput? ==> r.isOpen == s.isOpen && s.chat.messages <= r.chat.messages
    ensures e.ChatInput? ==> r.chat == Conversation.Step(s.chat, e.e)
  {
    match e
    case Toggle => ToggleChat(s)
    case ChatInput(ce) => s.(chat := Conversation.Step(s.chat, ce))
  }

  /**
   * `_handleKeyPress`: Enter without Shift sends what a click on the send button
   * sends; any other key leaves the state alone.
   */
  lemma KeyPressSends(s: FabState, key: string, shiftKey: bool)
    ensures TriggersSend(key, shiftKey) ==>
      Step(s, ChatInput(KeyPress(key, shiftKey))) == Step(s, ChatInput(ClickSend))
    ensures !TriggersSend(key, shiftKey) ==> Step(s, ChatInput(KeyPress(key, shiftKey))) == s
  {
  }

  /** The window starts closed with an empty conversation; the first toggle opens it. */
  lemma InitiallyClosed()
    ensures !FabInitial.isOpen && FabInitial.chat.messages == []
    ensures ToggleChat(FabInitial) == FabState(true, Initial)
  {
  }

  /** Each quick action, pressed while idle, queries the service with exactly its text. */
  lemma QuickActionSendsItsText(s: FabState, i: nat)
    requires i < |QuickActions|
    requires !s.chat.isLoading
    ensures IssuedQuery(s.chat, QuickAction(QuickActions[i])) == Some(QueryCall("ai_agent_ha", "query", QuickActions[i]))
    ensures var r := Step(s, ChatInput(QuickAction(QuickActions[i])));
      && r.chat.isLoading
      && r.chat.inputValue == ""
      && r.chat.messages == s.chat.messages + [Message(User, JsValues.Str(QuickActions[i]))]
  {
    var a := QuickActions[i];
    assert a[0] == 'C' || a[0] == 'S';
    assert a[|a| - 1] in "noest";
    LetterEdgesTrimmed(a);
    QuickActionSendsTrimmedText(s.chat, a);
  }
}

=== FILE: js_strings.dfy ===
/** `String.prototype.trim`, on which every send guard of the chat widgets rests. */
module JsStrings {

  /** The WhiteSpace and LineTerminator code points of ECMAScript, which `trim` removes. */
  const WhiteSpaceChars: set<char> := {
    '\t', '\U{B}', '\U{C}', ' ', '\U{A0}', '\U{FEFF}', '\U{1680}',
    '\U{2000}', '\U{2001}', '\U{2002}', '\U{2003}', '\U{2004}', '\U{2005}',
    '\U{2006}', '\U{2007}', '\U{2008}', '\U{2009}', '\U{200A}',
    '\U{202F}', '\U{205F}', '\U{3000}',
    '\n', '\r', '\U{2028}', '\U{2029}'
  }

  predicate IsWhiteSpace(c: char) {
    c in WhiteSpaceChars
  }

  predicate AllWhiteSpace(s: string) {
    forall i :: 0 <= i < |s| ==> IsWhiteSpace(s[i])
  }

  /**
   * Where the text `trim` keeps begins: the first index at or after `i` whose
   * character is not white space, or `|s|` when there is none.
   */
  function SkipLeading(s: string, i: nat): (k: nat)
    requires i <= |s|
    ensures i <= k <= |s|
    ensures forall j :: i <= j < k ==> IsWhiteSpace(s[j])
    ensures k == |s| || !IsWhiteSpace(s[k])
    decreases |s| - i
  {
    if i < |s| && IsWhiteSpace(s[i]) then SkipLeading(s, i + 1) else i
  }

  /**
   * Where it ends: the smallest `k`, no lower than `lo`, such that everything from
   * `k` up to `j` is white space.
   */
  function SkipTrailing(s: string, lo: nat, j: nat): (k: nat)
    requires lo <= j <= |s|
    ensures lo <= k <= j
    ensures forall m :: k <= m < j ==> IsWhiteSpace(s[m])
    ensures k == lo || !IsWhiteSpace(s[k - 1])
    decreases j - lo
  {
    if lo < j && IsWhiteSpace(s[j - 1]) then SkipTrailing(s, lo, j - 1) else j
  }

  /** How many leading white-space characters `trim` drops. */
  function LeadingCut(s: string): (k: nat)
    ensures k <= |s|
  {
    SkipLeading(s, 0)
  }

  /** Where the trailing white space that `trim` drops begins. */
  function TrailingCut(s: string): (k: nat)
    ensures LeadingCut(s) <= k <= |s|
  {
    SkipTrailing(s, LeadingCut(s), |s|)
  }

  /**
   * `s.trim()`: the text between the leading and the trailing white space. It is
   * never longer than the input and neither starts nor ends with white space.
   */
  function Trim(s: string): (r: string)
    ensures |r| <= |s|
    ensures r == [] || (!IsWhiteSpace(r[0]) && !IsWhiteSpace(r[|r| - 1]))
  {
    var lo, hi := LeadingCut(s), TrailingCut(s);
    assert lo < hi ==> s[lo..hi][0] == s[lo] && s[lo..hi][hi - lo - 1] == s[hi - 1];
    s[lo..hi]
  }

  /** `trim` only cuts white space, at either end, and keeps the rest in place. */
  lemma TrimCuts(s: string)
    ensures s == s[..LeadingCut(s)] + Trim(s) + s[TrailingCut(s)..]
    ensures forall i :: 0 <= i < LeadingCut(s) ==> IsWhiteSpace(s[i])
    ensures forall i :: TrailingCut(s) <= i < |s| ==> IsWhiteSpace(s[i])
  {
    var lo, hi := LeadingCut(s), TrailingCut(s);
    assert s == s[..lo] + s[lo..hi] + s[hi..];
  }

  /** The trimmed input is empty exactly when the input is all white space. */
  lemma TrimEmptyIffBlank(s: string)
    ensures Trim(s) == [] <==> AllWhiteSpace(s)
  {
    var lo, hi := LeadingCut(s), TrailingCut(s);
    if AllWhiteSpace(s) {
      assert lo == |s|;
    }
  }

  /** `trim` leaves a string alone exactly when it neither starts nor ends with white space. */
  lemma TrimFixedIffEdges(s: string)
    ensures Trim(s) == s <==> s == [] || (!IsWhiteSpace(s[0]) && !IsWhiteSpace(s[|s| - 1]))
  {
    if s != [] && !IsWhiteSpace(s[0]) && !IsWhiteSpace(s[|s| - 1]) {
      assert LeadingCut(s) == 0;
      assert TrailingCut(s) == |s|;
    }
  }

  predicate IsAsciiLetter(c: char) {
    'A' <= c <= 'Z' || 'a' <= c <= 'z'
  }

  /** A non-empty string that starts and ends with an ASCII letter is its own trim. */
  lemma LetterEdgesTrimmed(s: string)
    requires s != []
    requires IsAsciiLetter(s[0]) && IsAsciiLetter(s[|s| - 1])
    ensures Trim(s) == s
  {
    var first, last := s[0], s[|s| - 1];
    assert first !in WhiteSpaceChars;
    assert last !in WhiteSpaceChars;
    TrimFixedIffEdges(s);
  }

  /** Trimming twice is trimming once. */
  lemma TrimIdempotent(s: string)
    ensures Trim(Trim(s)) == Trim(s)
  {
    TrimFixedIffEdges(Trim(s));
  }
}

=== FILE: js_values.dfy ===
/** JavaScript values as the chat widgets see them in service responses and errors. */
module JsValues {
  import opened Common

  /** Numbers are modelled as integers; NaN and fractions are not modelled. */
  datatype JsValue =
    | Undefined
    | Null
    | Bool(b: bool)
    | Num(n: int)
    | Str(s: string)
    | Arr(items: seq<JsValue>)
    | Obj(props: map<string, JsValue>)

  /** JavaScript truthiness: unlike Python, every array and object is truthy. */
  predicate Truthy(v: JsValue) {
    match v
    case Undefined => false
    case Null => false
    case Bool(b) => b
    case Num(n) => n != 0
    case Str(s) => s != ""
    case Arr(_) => true
    case Obj(_) => true
  }

  /**
   * The data properties the widgets read. No primitive or array has a property of
   * these names, which is what lets `Member` answer undefined for them.
   */
  const WidgetKeys: set<string> := {"response", "error", "message", "title", "show_quick_actions"}

  /**
   * `v.key` for a property the widgets read: None when the access throws a
   * TypeError, i.e. on null and undefined; Undefined when the property is absent.
   */
  function Member(v: JsValue, key: string): (r: Option<JsValue>)
    requires key in WidgetKeys
    ensures r.None? <==> v.Undefined? || v.Null?
    ensures r.Some? && !v.Obj? ==> r.value == Undefined
    ensures v.Obj? ==> r == Some(if key in v.props then v.props[key] else Undefined)
  {
    match v
    case Undefined => None
    case Null => None
    case Obj(props) => Some(if key in props then props[key] else Undefined)
    case _ => Some(Undefined)
  }

  /** `v?.key`: optional chaining yields undefined instead of throwing. */
  function OptionalMember(v: JsValue, key: string): JsValue
    requires key in WidgetKeys
  {
    Member(v, key).GetOr(Undefined)
  }

  function DigitChar(d: nat): (c: char)
    requires d < 10
    ensures '0' <= c <= '9'
  {
    ('0' as int + d) as char
  }

  predicate AllDigits(s: string) {
    forall i :: 0 <= i < |s| ==> '0' <= s[i] <= '9'
  }

  /** Decimal digits of a natural number, without leading zeros. */
  function Digits(n: nat): (r: string)
    ensures r != [] && AllDigits(r)
    ensures r[0] == '0' ==> n == 0
    decreases n
  {
    if n < 10 then [DigitChar(n)] else Digits(n / 10) + [DigitChar(n % 10)]
  }

  /** The number a string of decimal digits denotes. */
  function DigitsValue(s: string): nat
    requires AllDigits(s)
    decreases |s|
  {
    if s == [] then 0 else DigitsValue(s[..|s| - 1]) * 10 + (s[|s| - 1] as int - '0' as int)
  }

  /** The number an integer's text denotes: an optional minus sign, then digits. */
  function NumberValue(t: string): int
    requires t != [] && (t[0] == '-' ==> AllDigits(t[1..])) && (t[0] != '-' ==> AllDigits(t))
  {
    if t[0] == '-' then -(DigitsValue(t[1..]) as int) else DigitsValue(t)
  }

  /** Reading back the digits of `n` gives `n`. */
  lemma {:induction false} DigitsRoundTrip(n: nat)
    ensures DigitsValue(Digits(n)) == n
    decreases n
  {
    if n >= 10 {
      DigitsRoundTrip(n / 10);
      var t := Digits(n);
      assert t[..|t| - 1] == Digits(n / 10);
    }
  }

  /**
   * `String(v)`, the conversion a template literal applies: strings pass
   * unchanged, an integer becomes its decimal text with a minus sign when negative.
   */
  function ToText(v: JsValue): (r: string)
    ensures v.Str? ==> r == v.s
    ensures v.Undefined? ==> r == "undefined"
    ensures v.Null? ==> r == "null"
    ensures v.Bool? ==> r == (if v.b then "true" else "false")
    ensures v.Obj? ==> r == "[object Object]"
    ensures v.Num? ==> r != [] && (r[0] == '-' <==> v.n < 0)
    ensures v.Num? && v.n >= 0 ==> AllDigits(r)
    ensures v.Num? && v.n < 0 ==> AllDigits(r[1..])
    ensures v.Num? && v.n > 0 ==> r[0] != '0'
    ensures v.Num? && v.n < 0 ==> |r| >= 2 && r[1] != '0'
    ensures v.Arr? ==> r == JoinItems(v.items)
    ensures v.Arr? && v.items == [] ==> r == ""
    decreases v
  {
    match v
    case Undefined => "undefined"
    case Null => "null"
    case Bool(b) => if b then "true" else "false"
    case Num(n) =>
      if n < 0 then
        var t := "-" + Digits(-n);
        assert t[1..] == Digits(-n);
        t
      else Digits(n)
    case Str(s) => s
    case Arr(items) => JoinItems(items)
    case Obj(_) => "[object Object]"
  }

  /** An integer's text reads back as the integer. */
  lemma NumberTextRoundTrip(n: int)
    ensures NumberValue(ToText(Num(n))) == n
  {
    if n < 0 {
      DigitsRoundTrip(-n);
      assert ToText(Num(n))[1..] == Digits(-n);
    } else {
      DigitsRoundTrip(n);
    }
  }

  /** `items.join(",")`: null and undefined elements become empty strings. */
  function JoinItems(items: seq<JsValue>): (r: string)
    ensures items == [] ==> r == ""
    ensures |items| == 1 && (items[0].Undefined? || items[0].Null?) ==> r == ""
    ensures |items| == 1 && !(items[0].Undefined? || items[0].Null?) ==> r == ToText(items[0])
    decreases items
  {
    if items == [] then ""
    else
      var head := if items[0].Undefined? || items[0].Null? then "" else ToText(items[0]);
      if |items| == 1 then head else head + "," + JoinItems(items[1..])
  }
}

=== FILE: lifecycle.dfy ===
/** Config-entry setup (validation, normalisation, registry update) and unload. */
module Lifecycle {
  import opened Common
  import opened PyJson
  import opened Entries

  /** The providers setup accepts. */
  const AllowedProviders: seq<string> :=
    ["llama", "openai", "gemini", "openrouter", "anthropic", "alter", "zai", "bedrock", "local"]

  const MissingProviderMessage := "Config entry missing required 'ai_provider' key"
  const UnknownProviderPrefix := "Unknown AI provider: "
  /** Every not-ready error raised inside setup's `try` is caught and re-raised with this prefix. */
  const SetupErrorPrefix := "Error setting up AI Agent HA: "

  datatype Status = Ready | NotReady(reason: string)

  /**
   * How the agent's constructor raises: a `KeyError` (carrying `str(err)`, the key's
   * repr) is caught by setup's `except KeyError`; anything else by `except Exception`.
   */
  datatype ConstructorFault = KeyErrorRaised(keyText: string) | OtherRaised(message: string)

  const MissingKeyPrefix := "Missing required configuration key: "

  /** The not-ready reason setup reports for a constructor fault. */
  function FaultReason(f: ConstructorFault): (reason: string)
    ensures f.KeyErrorRaised? ==> reason == MissingKeyPrefix + f.keyText
    ensures f.OtherRaised? ==> reason == SetupErrorPrefix + f.message
  {
    match f
    case KeyErrorRaised(k) => MissingKeyPrefix + k
    case OtherRaised(m) => SetupErrorPrefix + m
  }

  /**
   * The result of setting up one entry: the status reported to the host, the data
   * written back to the config entry (if any), and the registry under the domain.
   */
  datatype SetupOutcome = SetupOutcome(
    status: Status,
    persisted: Option<ConfigData>,
    state: Option<Registry>)

  /** `DEFAULT_MODELS.get(provider, "")`; the defaults table is a parameter. */
  function DefaultModel(defaults: map<string, string>, provider: string): string {
    if provider in defaults then defaults[provider] else ""
  }

  /** The provider has no model, or an empty one, in the entry as stored. */
  predicate ModelMissing(entry: ConfigData, provider: string) {
    var models := entry.ModelsOrEmpty();
    provider !in models || models[provider] == ""
  }

  datatype Normalised = Normalised(data: ConfigData, persist: bool)

  /**
   * Ensures a `models` map exists and fills the provider's model from the
   * defaults table when it is missing or empty; `persist` says the entry must be
   * written back.
   */
  function Normalise(entry: ConfigData, provider: string, defaults: map<string, string>): (r: Normalised)
    requires entry.aiProvider == Some(provider)
    ensures r.persist <==> ModelMissing(entry, provider)
    ensures r.data.aiProvider == entry.aiProvider && r.data.other == entry.other
    ensures r.data.models.Some? && provider in r.data.models.value
    ensures r.persist ==> r.data.models.value[provider] == DefaultModel(defaults, provider)
    ensures !r.persist ==> r.data == entry && entry.models.value[provider] != ""
    ensures forall q :: q != provider ==> (q in r.data.models.value <==> q in entry.ModelsOrEmpty())
    ensures forall q :: q != provider && q in entry.ModelsOrEmpty() ==>
      r.data.models.value[q] == entry.ModelsOrEmpty()[q]
  {
    var models := entry.ModelsOrEmpty();
    if provider !in models || models[provider] == "" then
      Normalised(entry.(models := Some(models[provider := DefaultModel(defaults, provider)])), true)
    else
      Normalised(entry.(models := Some(models)), false)
  }

  /**
   * Setup for a provider on the allow-list: its config is stored first, then its
   * agent, unless the agent's constructor raises.
   */
  function Register(reg: Registry, p: string, data: ConfigData, agentFault: Option<ConstructorFault>): (r: (Status, Registry))
    requires reg.Valid()
    ensures r.1.Valid()
    ensures p in r.1.configs && r.1.configs[p] == data
    ensures r.1.configs.Keys == reg.configs.Keys + {p}
    ensures forall q :: q != p && q in reg.configs ==> r.1.configs[q] == reg.configs[q]
    ensures agentFault.Some? ==>
      r.0 == NotReady(FaultReason(agentFault.value)) && r.1.agents == reg.agents && r.1.order == reg.order
    ensures agentFault.None? ==>
      && r.0 == Ready
      && p in r.1.agents && r.1.agents[p] == AgentHandle(data)
      && (forall q :: q != p ==> (q in r.1.agents <==> q in reg.agents))
      && (forall q :: q != p && q in reg.agents ==> r.1.agents[q] == reg.agents[q])
      && reg.order <= r.1.order
  {
    var stored := reg.(configs := reg.configs[p := data]);
    match agentFault
    case Some(f) => (NotReady(FaultReason(f)), stored)
    case None => (Ready, stored.PutAgent(p, AgentHandle(data)))
  }

  /**
   * `async_setup_entry` up to the registration of services. `agentFault` is how
   * the agent's constructor raises, if it does.
   */
  function SetupEntry(entry: ConfigData, defaults: map<string, string>, state: Option<Registry>,
                      agentFault: Option<ConstructorFault>): (r: SetupOutcome)
    requires state.Some? ==> state.value.Valid()
    ensures r.state.Some? ==> r.state.value.Valid()
    // Missing provider: not ready, and nothing at all changes.
    ensures entry.aiProvider.None? ==>
      r == SetupOutcome(NotReady(SetupErrorPrefix + MissingProviderMessage), None, state)
    ensures r.status.Ready? <==>
      entry.aiProvider.Some? && entry.aiProvider.value in AllowedProviders && agentFault.None?
    // The entry is written back exactly when the model had to be filled in, before the
    // allow-list check, and what is written back is the whole normalised record.
    ensures entry.aiProvider.Some? ==>
      r.persisted == (if ModelMissing(entry, entry.aiProvider.value)
                      then Some(Normalise(entry, entry.aiProvider.value, defaults).data) else None)
    // Unknown provider: not ready, the domain exists afterwards, no entry is stored.
    ensures entry.aiProvider.Some? && entry.aiProvider.value !in AllowedProviders ==>
      && r.status == NotReady(SetupErrorPrefix + UnknownProviderPrefix + entry.aiProvider.value)
      && r.state == Some(RegistryOrEmpty(state))
    // Constructor failure: the config was already stored; agents and order stay as they were.
    ensures entry.aiProvider.Some? && entry.aiProvider.value in AllowedProviders && agentFault.Some? ==>
      && r.status == NotReady(FaultReason(agentFault.value))
      && r.state.Some?
      && entry.aiProvider.value in r.state.value.configs
      && r.state.value.configs[entry.aiProvider.value]
         == Normalise(entry, entry.aiProvider.value, defaults).data
      && r.state.value.agents == RegistryOrEmpty(state).agents
      && r.state.value.order == RegistryOrEmpty(state).order
      && r.state.value.configs.Keys == RegistryOrEmpty(state).configs.Keys + {entry.aiProvider.value}
      && (forall q :: q != entry.aiProvider.value && q in RegistryOrEmpty(state).configs ==>
            r.state.value.configs[q] == RegistryOrEmpty(state).configs[q])
    // Success: this provider's config and agent are (re)placed, every other provider is untouched.
    ensures r.status.Ready? ==>
      var p := entry.aiProvider.value;
      var old_ := RegistryOrEmpty(state);
      && r.state.Some?
      && p in r.state.value.configs && p in r.state.value.agents
      && r.state.value.configs[p] == Normalise(entry, p, defaults).data
      && r.state.value.agents[p] == AgentHandle(r.state.value.configs[p])
      && (forall q :: q != p ==> (q in r.state.value.configs <==> q in old_.configs))
      && (forall q :: q != p && q in old_.configs ==> r.state.value.configs[q] == old_.configs[q])
      && (forall q :: q != p ==> (q in r.state.value.agents <==> q in old_.agents))
      && (forall q :: q != p && q in old_.agents ==> r.state.value.agents[q] == old_.agents[q])
      && old_.order <= r.state.value.order
  {
    match entry.aiProvider
    case None =>
      SetupOutcome(NotReady(SetupErrorPrefix + MissingProviderMessage), None, state)
    case Some(p) =>
      var n := Normalise(entry, p, defaults);
      var persisted := if n.persist then Some(n.data) else None;
      var reg := RegistryOrEmpty(state);
      if p !in AllowedProviders then
        SetupOutcome(NotReady(SetupErrorPrefix + UnknownProviderPrefix + p), persisted, Some(reg))
      else
        var (status, registered) := Register(reg, p, n.data, agentFault);
        SetupOutcome(status, persisted, Some(registered))
  }

  /** `async_unload_entry`: the whole registry under the domain is discarded. */
  function Unload(state: Option<Registry>): (r: Option<Registry>)
    ensures NoAgentsRegistered(r)
    ensures r.None?
  {
    None
  }

  /** Unloading twice is the same as unloading once. */
  lemma UnloadIdempotent(state: Option<Registry>)
    ensures Unload(Unload(state)) == Unload(state)
    ensures NoAgentsRegistered(Unload(state))
  {
  }

  /** Sets up the entries one after another, none of whose agent constructors fail. */
  function SetupSequence(entries: seq<ConfigData>, defaults: map<string, string>,
                         state: Option<Registry>): (r: Option<Registry>)
    requires state.Some? ==> state.value.Valid()
    ensures r.Some? ==> r.value.Valid()
    decreases |entries|
  {
    if entries == [] then state
    else SetupSequence(entries[1..], defaults, SetupEntry(entries[0], defaults, state, None).state)
  }

  /** The provider of the first entry that setup accepts. */
  function FirstAccepted(entries: seq<ConfigData>): Option<string> {
    if entries == [] then None
    else if entries[0].aiProvider.Some? && entries[0].aiProvider.value in AllowedProviders
    then entries[0].aiProvider
    else FirstAccepted(entries[1..])
  }

  function OrderOf(state: Option<Registry>): seq<string> {
    RegistryOrEmpty(state).order
  }

  /**
   * The earliest-registered provider is the first accepted one: a non-empty
   * insertion order keeps its head, and an empty one is headed by the first
   * entry setup accepts.
   */
  lemma {:induction false} SequenceKeepsEarliest(entries: seq<ConfigData>, defaults: map<string, string>,
                                                 state: Option<Registry>)
    requires state.Some? ==> state.value.Valid()
    ensures var s := SetupSequence(entries, defaults, state);
      && (OrderOf(state) != [] ==> OrderOf(s) != [] && OrderOf(s)[0] == OrderOf(state)[0])
      && (OrderOf(state) == [] && FirstAccepted(entries).Some? ==>
            OrderOf(s) != [] && OrderOf(s)[0] == FirstAccepted(entries).value)
      && (OrderOf(state) == [] && FirstAccepted(entries).None? ==> OrderOf(s) == [])
    decreases |entries|
  {
    if entries != [] {
      var next := SetupEntry(entries[0], defaults, state, None).state;
      SequenceKeepsEarliest(entries[1..], defaults, next);
      if OrderOf(state) != [] {
        assert OrderOf(state) <= OrderOf(next);
      } else if entries[0].aiProvider.Some? && entries[0].aiProvider.value in AllowedProviders {
        assert OrderOf(next) == [entries[0].aiProvider.value];
      } else {
        assert OrderOf(next) == OrderOf(state);
      }
    }
  }
}

=== FILE: py_json.dfy ===
/** Python values as they arrive in a service call's data or in a config entry. */
module PyJson {
  import opened Common

  /** The value shapes a service call can carry. Floats are not modelled. */
  datatype Json =
    | Null
    | Bool(b: bool)
    | Int(i: int)
    | Str(s: string)
    | List(items: seq<Json>)
    | Dict(entries: map<string, Json>)

  /** Python truthiness: None, False, 0, "", [] and {} are falsy. */
  predicate Truthy(v: Json) {
    match v
    case Null => false
    case Bool(b) => b
    case Int(i) => i != 0
    case Str(s) => s != ""
    case List(items) => items != []
    case Dict(entries) => entries != map[]
  }

  /** Lists and dicts are unhashable: `x in d` raises TypeError for them. */
  predicate Hashable(v: Json) {
    !v.List? && !v.Dict?
  }

  /** Python's name of the value's type, as it appears in error messages. */
  function TypeName(v: Json): string {
    match v
    case Null => "NoneType"
    case Bool(_) => "bool"
    case Int(_) => "int"
    case Str(_) => "str"
    case List(_) => "list"
    case Dict(_) => "dict"
  }

  /** `data.get(key, default)`. */
  function Get(data: map<string, Json>, key: string, default: Json): Json {
    if key in data then data[key] else default
  }

  /** `data.get(key)`: None when the key is absent. */
  function Lookup(data: map<string, Json>, key: string): Option<Json> {
    if key in data then Some(data[key]) else None
  }

  /** The structured error every handler returns: `{"error": msg}`. */
  function ErrorObject(msg: string): Json {
    Dict(map["error" := Str(msg)])
  }

  /** True of exactly the values `ErrorObject` builds. */
  predicate IsErrorObject(v: Json) {
    v.Dict? && v.entries.Keys == {"error"} && v.entries["error"].Str?
  }
}

=== FILE: scenarios.dfy ===
/** Properties that tie setup, unload and the service handlers together. */
module Scenarios {
  import opened Common
  import opened PyJson
  import opened Entries
  import opened Lifecycle
  import opened Services
  import Agent

  /**
   * After a sequence of setups from an empty domain, a call naming no registered
   * provider is served by the agent of the first provider setup accepted.
   */
  lemma FallbackServesEarliest(op: Operation, call: ServiceCall, entries: seq<ConfigData>,
                               defaults: map<string, string>, parse: string -> ParseResult,
                               invoke: (AgentHandle, Agent.Request) -> Agent.Outcome)
    requires FirstAccepted(entries).Some?
    requires var s := SetupSequence(entries, defaults, None);
      s.Some? ==> !IsRegistered(Lookup(call.data, "provider"), s.value)
    requires Lookup(call.data, "provider").None? || Hashable(Lookup(call.data, "provider").value)
    requires PrepareRequest(op, call, FirstAccepted(entries).value, parse).Built?
    ensures var s := SetupSequence(entries, defaults, None);
      var r := Dispatch(op, call, s, parse, invoke);
      && r.invocation.Some?
      && r.invocation.value.provider == FirstAccepted(entries).value
  {
    SequenceKeepsEarliest(entries, defaults, None);
    var s := SetupSequence(entries, defaults, None);
    assert s.Some? && s.value.order[0] in s.value.agents;
  }

  /** After unload every handler returns the fixed error and calls no agent. */
  lemma UnloadedServesNothing(op: Operation, call: ServiceCall, state: Option<Registry>,
                              parse: string -> ParseResult,
                              invoke: (AgentHandle, Agent.Request) -> Agent.Outcome)
    ensures var r := Dispatch(op, call, Unload(state), parse, invoke);
      r.invocation.None? && r.payload == ErrorObject(NoAgentsMessage)
  {
  }

  /**
   * `{"ai_provider": "openai"}` without models: setup is ready, `openai` is
   * registered with the default model, and the filled-in record is written back.
   */
  lemma OpenAiWithoutModels(defaults: map<string, string>, state: Option<Registry>)
    requires state.Some? ==> state.value.Valid()
    ensures var entry := ConfigData(Some("openai"), None, map[]);
      var r := SetupEntry(entry, defaults, state, None);
      && r.status == Ready
      && r.persisted == Some(ConfigData(Some("openai"), Some(map["openai" := DefaultModel(defaults, "openai")]), map[]))
      && r.state.Some?
      && "openai" in r.state.value.agents
      && r.state.value.configs["openai"] == r.persisted.value
  {
    var entry := ConfigData(Some("openai"), None, map[]);
    assert "openai" in AllowedProviders;
    assert ModelMissing(entry, "openai");
  }
}

=== FILE: services.dfy ===
/**
 * The eight service handlers. They share one policy: refuse when no agent is
 * registered, pick the requested provider or fall back to the earliest
 * registered one, call the agent and turn any failure into `{"error": msg}`.
 */
module Services {
  import opened Common
  import opened PyJson
  import opened Entries
  import Agent

  const NoAgentsMessage := "No AI agents configured"
  const UrlRequiredMessage := "Dashboard URL is required"
  const InvalidJsonPrefix := "Invalid JSON in dashboard_config: "
  const DefaultUserId := "default"

  datatype Operation =
    | Query
    | CreateAutomation
    | SavePromptHistory
    | LoadPromptHistory
    | CreateDashboard
    | UpdateDashboard
    | SaveChatMessages
    | LoadChatMessages

  /** A service call: its data and the user id of its originating context, if any. */
  datatype ServiceCall = ServiceCall(data: map<string, Json>, contextUserId: Option<string>)

  /** What `json.loads` does with a string: a value, or a decode error's message. */
  datatype ParseResult = Parsed(value: Json) | ParseError(message: string)

  /** The provider a handler settles on, or why it cannot settle on one. */
  datatype Selection = Chosen(provider: string) | NoAgents | Raised(message: string)

  /** The agent request a handler is about to make, or the error it returns instead. */
  datatype Prepared = Built(request: Agent.Request) | Refused(message: string)

  /** A dashboard configuration after the optional decoding of a string. */
  datatype Decoded = Decoded(config: Json) | Undecodable(message: string)

  /** One agent call made by a handler: which provider, which agent, what request. */
  datatype Invocation = Invocation(provider: string, agent: AgentHandle, request: Agent.Request)

  /**
   * What a handler does: the agent call it made (if any) and its payload. The
   * payload is fired on the event bus when `viaEvent`, and returned otherwise.
   */
  datatype Handled = Handled(invocation: Option<Invocation>, payload: Json, viaEvent: bool)

  /** The operation an agent request serves. */
  function OperationOf(req: Agent.Request): Operation {
    match req
    case ProcessQuery(_, _, _) => Query
    case CreateAutomation(_) => CreateAutomation
    case SaveUserPromptHistory(_, _) => SavePromptHistory
    case LoadUserPromptHistory(_) => LoadPromptHistory
    case CreateDashboard(_) => CreateDashboard
    case UpdateDashboard(_, _) => UpdateDashboard
    case SaveChatMessages(_, _, _) => SaveChatMessages
    case LoadChatMessages(_, _) => LoadChatMessages
  }

  /** The requested provider is a string naming a registered agent. */
  predicate IsRegistered(requested: Option<Json>, reg: Registry) {
    requested.Some? && requested.value.Str? && requested.value.s in reg.agents
  }

  function UnhashableMessage(v: Json): string {
    "unhashable type: '" + TypeName(v) + "'"
  }

  /**
   * Provider selection: the requested provider when registered, else the first key
   * in insertion order. A list or dict as provider makes the membership test raise.
   */
  function SelectProvider(requested: Option<Json>, reg: Registry): (r: Selection)
    requires reg.Valid()
    ensures r.Raised? <==> requested.Some? && !Hashable(requested.value)
    ensures r.Raised? ==> r.message == UnhashableMessage(requested.value)
    ensures r == NoAgents <==> (requested.None? || Hashable(requested.value)) && reg.agents == map[]
    ensures r.Chosen? ==> r.provider in reg.agents
    ensures IsRegistered(requested, reg) ==> r == Chosen(requested.value.s)
    ensures r.Chosen? && !IsRegistered(requested, reg) ==> r.provider == reg.order[0]
  {
    if requested.Some? && !Hashable(requested.value) then
      Raised(UnhashableMessage(requested.value))
    else if IsRegistered(requested, reg) then
      Chosen(requested.value.s)
    else if reg.order == [] then
      assert reg.agents.Keys == {};
      NoAgents
    else
      assert reg.order[0] in reg.agents;
      Chosen(reg.order[0])
  }

  /** `call.context.user_id if call.context.user_id else "default"`. */
  function UserId(call: ServiceCall): (id: string)
    ensures call.contextUserId.Some? && call.contextUserId.value != "" ==> id == call.contextUserId.value
    ensures call.contextUserId.None? || call.contextUserId.value == "" ==> id == DefaultUserId
    ensures id != ""
  {
    match call.contextUserId
    case Some(u) => if u != "" then u else DefaultUserId
    case None => DefaultUserId
  }

  /** `dashboard_config` (default `{}`), decoded first when it is a string. */
  function DashboardConfig(call: ServiceCall, parse: string -> ParseResult): (r: Decoded)
    ensures var given := Get(call.data, "dashboard_config", Dict(map[]));
      && (!given.Str? ==> r == Decoded(given))
      && (given.Str? && parse(given.s).Parsed? ==> r == Decoded(parse(given.s).value))
      && (given.Str? && parse(given.s).ParseError? ==>
            r == Undecodable(InvalidJsonPrefix + parse(given.s).message))
  {
    var given := Get(call.data, "dashboard_config", Dict(map[]));
    if given.Str? then
      match parse(given.s)
      case Parsed(v) => Decoded(v)
      case ParseError(m) => Undecodable(InvalidJsonPrefix + m)
    else
      Decoded(given)
  }

  /**
   * The agent request a handler makes once the provider is chosen, with the
   * defaults each handler applies, or the error returned instead.
   */
  function PrepareRequest(op: Operation, call: ServiceCall, provider: string,
                          parse: string -> ParseResult): (r: Prepared)
    ensures r.Built? ==> OperationOf(r.request) == op
    ensures r.Refused? <==>
      || ((op == CreateDashboard || op == UpdateDashboard) && DashboardConfig(call, parse).Undecodable?)
      || (op == UpdateDashboard && DashboardConfig(call, parse).Decoded?
          && !Truthy(Get(call.data, "dashboard_url", Str(""))))
    ensures r.Refused? && DashboardConfig(call, parse).Undecodable? ==>
      r.message == DashboardConfig(call, parse).message
    ensures r.Refused? && DashboardConfig(call, parse).Decoded? ==> r.message == UrlRequiredMessage
    ensures r.Built? && r.request.CreateDashboard? ==>
      r.request.dashboardConfig == DashboardConfig(call, parse).config
    ensures r.Built? && r.request.UpdateDashboard? ==>
      && r.request.dashboardConfig == DashboardConfig(call, parse).config
      && Truthy(r.request.dashboardUrl)
    ensures r.Built? && (r.request.SaveUserPromptHistory? || r.request.LoadUserPromptHistory?
                         || r.request.SaveChatMessages? || r.request.LoadChatMessages?) ==>
      r.request.userId == UserId(call)
    // The call's payload fields reach the agent, with each handler's default when absent.
    ensures r.Built? && r.request.ProcessQuery? ==>
      && r.request.prompt == Get(call.data, "prompt", Str(""))
      && r.request.debug == Get(call.data, "debug", Bool(false))
    ensures r.Built? && r.request.CreateAutomation? ==>
      r.request.automation == Get(call.data, "automation", Dict(map[]))
    ensures r.Built? && r.request.SaveUserPromptHistory? ==>
      r.request.history == Get(call.data, "history", List([]))
    ensures r.Built? && r.request.SaveChatMessages? ==>
      r.request.messages == Get(call.data, "messages", List([]))
    ensures r.Built? && r.request.UpdateDashboard? ==>
      r.request.dashboardUrl == Get(call.data, "dashboard_url", Str(""))
    ensures r.Built? && (r.request.ProcessQuery? || r.request.SaveChatMessages?
                         || r.request.LoadChatMessages?) ==>
      r.request.provider == provider
  {
    match op
    case Query =>
      Built(Agent.ProcessQuery(Get(call.data, "prompt", Str("")), provider,
                               Get(call.data, "debug", Bool(false))))
    case CreateAutomation =>
      Built(Agent.CreateAutomation(Get(call.data, "automation", Dict(map[]))))
    case SavePromptHistory =>
      Built(Agent.SaveUserPromptHistory(UserId(call), Get(call.data, "history", List([]))))
    case LoadPromptHistory =>
      Built(Agent.LoadUserPromptHistory(UserId(call)))
    case CreateDashboard =>
      (match DashboardConfig(call, parse)
       case Undecodable(m) => Refused(m)
       case Decoded(c) => Built(Agent.CreateDashboard(c)))
    case UpdateDashboard =>
      (match DashboardConfig(call, parse)
       case Undecodable(m) => Refused(m)
       case Decoded(c) =>
         var url := Get(call.data, "dashboard_url", Str(""));
         if !Truthy(url) then Refused(UrlRequiredMessage)
         else Built(Agent.UpdateDashboard(url, c)))
    case SaveChatMessages =>
      Built(Agent.SaveChatMessages(UserId(call), Get(call.data, "messages", List([])), provider))
    case LoadChatMessages =>
      Built(Agent.LoadChatMessages(UserId(call), provider))
  }

  /** An agent's result as the handler passes it on: as is, or `{"error": msg}`. */
  function OutcomePayload(o: Agent.Outcome): Json {
    match o
    case Ok(v) => v
    case Fail(m) => ErrorObject(m)
  }

  /** `query` fires its payload as an event; the other handlers return it. */
  function Respond(op: Operation, invocation: Option<Invocation>, payload: Json): Handled {
    Handled(invocation, payload, op == Query)
  }

  /**
   * One service call handled end to end. `parse` stands for `json.loads` on strings
   * and `invoke` for the awaited agent method.
   */
  function Dispatch(op: Operation, call: ServiceCall, state: Option<Registry>,
                    parse: string -> ParseResult,
                    invoke: (AgentHandle, Agent.Request) -> Agent.Outcome): (r: Handled)
    requires state.Some? ==> state.value.Valid()
    ensures r.viaEvent <==> op == Query
    // No agents: exactly the fixed error, and no agent is called.
    ensures NoAgentsRegistered(state) ==>
      r.invocation.None? && r.payload == ErrorObject(NoAgentsMessage)
    // Every agent call goes to a registered agent of the selected provider, for this operation.
    ensures r.invocation.Some? ==>
      var inv := r.invocation.value;
      && state.Some?
      && inv.provider in state.value.agents
      && inv.agent == state.value.agents[inv.provider]
      && OperationOf(inv.request) == op
      && PrepareRequest(op, call, inv.provider, parse) == Built(inv.request)
      && (IsRegistered(Lookup(call.data, "provider"), state.value) ==>
            inv.provider == Lookup(call.data, "provider").value.s)
      && (!IsRegistered(Lookup(call.data, "provider"), state.value) ==>
            inv.provider == state.value.order[0])
      && r.payload == OutcomePayload(invoke(inv.agent, inv.request))
    // The agent is called exactly when there are agents, the provider test does not
    // raise and the request is not refused.
    ensures r.invocation.Some? <==>
      && !NoAgentsRegistered(state)
      && SelectProvider(Lookup(call.data, "provider"), state.value).Chosen?
      && PrepareRequest(op, call, SelectProvider(Lookup(call.data, "provider"), state.value).provider,
                        parse).Built?
    // Whenever no agent is called the payload is a structured error.
    ensures r.invocation.None? ==> IsErrorObject(r.payload)
    // A list or dict provider: the TypeError's text, e.g. "unhashable type: 'list'".
    ensures !NoAgentsRegistered(state) && SelectProvider(Lookup(call.data, "provider"), state.value).Raised? ==>
      r.payload == ErrorObject(SelectProvider(Lookup(call.data, "provider"), state.value).message)
    // A refused request: the handler's own error message.
    ensures !NoAgentsRegistered(state) && SelectProvider(Lookup(call.data, "provider"), state.value).Chosen? ==>
      var prepared := PrepareRequest(op, call, SelectProvider(Lookup(call.data, "provider"), state.value).provider, parse);
      prepared.Refused? ==> r.payload == ErrorObject(prepared.message)
  {
    if NoAgentsRegistered(state) then
      Respond(op, None, ErrorObject(NoAgentsMessage))
    else
      var reg := state.value;
      match SelectProvider(Lookup(call.data, "provider"), reg)
      case NoAgents => Respond(op, None, ErrorObject(NoAgentsMessage))
      case Raised(m) => Respond(op, None, ErrorObject(m))
      case Chosen(p) =>
        var agent := reg.agents[p];
        match PrepareRequest(op, call, p, parse)
        case Refused(m) => Respond(op, None, ErrorObject(m))
        case Built(req) =>
          Respond(op, Some(Invocation(p, agent, req)), OutcomePayload(invoke(agent, req)))
  }

  /** An agent failure never escapes a handler: it becomes `{"error": msg}`. */
  lemma AgentFailureBecomesError(op: Operation, call: ServiceCall, state: Option<Registry>,
                                 parse: string -> ParseResult,
                                 invoke: (AgentHandle, Agent.Request) -> Agent.Outcome)
    requires state.Some? ==> state.value.Valid()
    requires forall a, q :: invoke(a, q).Fail?
    ensures IsErrorObject(Dispatch(op, call, state, parse, invoke).payload)
  {
    var r := Dispatch(op, call, state, parse, invoke);
    if r.invocation.Some? {
      var inv := r.invocation.value;
      assert invoke(inv.agent, inv.request).Fail?;
    }
  }

  /**
   * A list or dict given as `provider`, with agents registered: every handler
   * returns the TypeError's text as its error and calls no agent.
   */
  lemma UnhashableProviderRejected(op: Operation, call: ServiceCall, state: Option<Registry>,
                                   parse: string -> ParseResult,
                                   invoke: (AgentHandle, Agent.Request) -> Agent.Outcome)
    requires state.Some? ==> state.value.Valid()
    requires !NoAgentsRegistered(state)
    requires Lookup(call.data, "provider").Some? && !Hashable(Lookup(call.data, "provider").value)
    ensures var r := Dispatch(op, call, state, parse, invoke);
      && r.invocation.None?
      && (Lookup(call.data, "provider").value.List? ==> r.payload == ErrorObject("unhashable type: 'list'"))
      && (Lookup(call.data, "provider").value.Dict? ==> r.payload == ErrorObject("unhashable type: 'dict'"))
  {
    var v := Lookup(call.data, "provider").value;
    if v.List? {
      assert UnhashableMessage(v) == "unhashable type: 'list'";
    } else {
      assert UnhashableMessage(v) == "unhashable type: 'dict'";
    }
  }

  /**
   * `update_dashboard` with a decodable configuration but no (or an empty)
   * `dashboard_url` returns the fixed error without calling the agent.
   */
  lemma UpdateDashboardNeedsUrl(call: ServiceCall, state: Option<Registry>,
                                parse: string -> ParseResult,
                                invoke: (AgentHandle, Agent.Request) -> Agent.Outcome)
    requires state.Some? ==> state.value.Valid()
    requires !NoAgentsRegistered(state)
    requires Lookup(call.data, "provider").None? || Hashable(Lookup(call.data, "provider").value)
    requires DashboardConfig(call, parse).Decoded?
    requires !Truthy(Get(call.data, "dashboard_url", Str("")))
    ensures Dispatch(UpdateDashboard, call, state, parse, invoke)
            == Handled(None, ErrorObject(UrlRequiredMessage), false)
  {
  }

  /**
   * A dashboard configuration given as JSON text is handled exactly like the
   * value it decodes to; text that does not decode is refused with the decoder's
   * message and no agent call.
   */
  lemma DashboardTextMatchesValue(op: Operation, call: ServiceCall, text: string, v: Json,
                                  state: Option<Registry>, parse: string -> ParseResult,
                                  invoke: (AgentHandle, Agent.Request) -> Agent.Outcome)
    requires op == CreateDashboard || op == UpdateDashboard
    requires state.Some? ==> state.value.Valid()
    requires parse(text) == Parsed(v) && !v.Str?
    ensures Dispatch(op, call.(data := call.data["dashboard_config" := Str(text)]), state, parse, invoke)
         == Dispatch(op, call.(data := call.data["dashboard_config" := v]), state, parse, invoke)
  {
    var asText := call.(data := call.data["dashboard_config" := Str(text)]);
    var asValue := call.(data := call.data["dashboard_config" := v]);
    assert DashboardConfig(asText, parse) == DashboardConfig(asValue, parse);
    assert Lookup(asText.data, "provider") == Lookup(asValue.data, "provider");
    assert Get(asText.data, "dashboard_url", Str("")) == Get(asValue.data, "dashboard_url", Str(""));
  }

  /** Malformed dashboard text yields the decoding error and no agent call. */
  lemma DashboardTextRejected(op: Operation, call: ServiceCall, state: Option<Registry>,
                              parse: string -> ParseResult,
                              invoke: (AgentHandle, Agent.Request) -> Agent.Outcome)
    requires op == CreateDashboard || op == UpdateDashboard
    requires state.Some? ==> state.value.Valid()
    requires !NoAgentsRegistered(state)
    requires Lookup(call.data, "provider").None? || Hashable(Lookup(call.data, "provider").value)
    requires "dashboard_config" in call.data && call.data["dashboard_config"].Str?
    requires parse(call.data["dashboard_config"].s).ParseError?
    ensures var r := Dispatch(op, call, state, parse, invoke);
      && r.invocation.None?
      && r.payload == ErrorObject(InvalidJsonPrefix + parse(call.data["dashboard_config"].s).message)
  {
  }
}
